=== FILE: README.md ===
# Postman collection linter: a Dafny model of its report and rule logic

The linter fetches a Postman collection or workspace, lints it with Spectral
against a ruleset, and prints the violations grouped by message. Each
violation is labelled with the `name` of the node that owns the offending
field. This project models the three pure pieces of that tool and proves
properties about them:

- **The report (`process_results`).** Violations with a severity below 0 are
  dropped. A missing severity counts as 0. The rest are grouped by message:
  groups keep first-seen order, and violations keep input order inside each
  group. Every violation is labelled by walking the document along its path
  minus the last segment. The label is the parent object's truthy `name`,
  else the dotted path. If the walk fails, it is the dotted path plus the
  walk's error. See the `Grouping`, `Paths` and `Annotator` modules.
- **The argument decisions of `main`.** These are the two usage checks, the
  API-key check, the resource type, the uid, the temporary file name, the
  ruleset default and the choice of input. See the `Cli` module. The value
  of the `POSTMAN_API_KEY` environment variable is a parameter.
- **The custom Spectral rule in `folderDescription.js`.** It unwraps an
  optional `collection` wrapper. It then reports one error per top-level
  item that has neither `request` nor `description`. See the
  `FolderDescription` module.

The JSON document is an immutable `Json.Value`. Numbers are integers and
objects are maps. Two notions of truth are defined: `PyTruthy` for the Python
side and `JsTruthy` for the JavaScript rule. They differ only on empty
containers.

The model follows the code on these points:

- The name label requires a *truthy* `name`, not just a `name` field. An
  empty-string name falls back to the dotted path.
- `-w` together with `-p` is not rejected; see Findings.
- A list segment is converted with Python's `int`. So a negative index counts
  from the end of the list: `Paths.StepListIndex` proves this.

## Model

| member | source | states |
|---|---|---|
| Annotator.ProcessResults | linter.py:39-71 | The single pass that uses a message-to-group dictionary builds exactly the reference report: reportable violations grouped by first-seen message, then labelled |
| Annotator.ReportMembership | linter.py:42-44 | A violation appears in some group iff it occurs in the input with severity >= 0, a missing severity counting as 0; a failing walk never drops a violation |
| Annotator.ReportGroups | linter.py:41-48 | Each group's count equals the number of reportable input violations carrying exactly its message; all its violations carry that message and form a subsequence of the input (original relative order) |
| Annotator.ReportMessages | linter.py:41-47 | Group messages are pairwise distinct, and a message heads a group iff some reportable violation carries it |
| Annotator.ReportOrder | linter.py:41-47 | For groups i < j, the first occurrence of group i's message in the filtered input precedes that of group j's |
| Annotator.ReportShape | linter.py:44-49 | Group i of the report carries the i-th first-seen message and the violations with that message in input order |
| Annotator.Annotate | linter.py:49-50 | Labelling keeps each group's violations, in order and unchanged, and entry i carries the label of violation i's own path |
| Annotator.LabelOf | linter.py:59-71 | The label is unresolved, with the walk's own error, iff the walk along path[:-1] fails; it is a name iff the walk reaches an object whose `name` is truthy, and then it is that name; every other label carries the dotted path |
| Annotator.LabelFallsBackToPath | linter.py:60-68 | Once path[:-1] reaches a list, a scalar, or an object without a truthy `name`, the label is the dotted path, whatever the path's length |
| Annotator.ReportLabels | linter.py:49-71 | Every entry of the report is labelled by walking its own violation's path |
| Annotator.LabelIgnoresLastSegment | linter.py:53-66 | Once path[:-1] reaches an object with a truthy `name`, that name is the label whatever the last segment is, even a missing key |
| Annotator.LabelOfShortPath | linter.py:53-54 | For an empty or one-segment path the parent is the root: its truthy `name` if it is such an object, else the dotted path |
| Annotator.LabelOfEmbedded | linter.py:52-66 | In the smallest document `Embed` builds so that a path leads to an object with a truthy `name`, a violation one segment below is labelled with that name |
| Annotator.LabelAfterFailedPrefix | linter.py:69-71 | A walk that fails on a prefix fails for every longer path with the same error, and the label is the dotted path of the whole path plus that error |
| Annotator.ExampleNamedParent | linter.py:52-66 | `item.0.request` in `{"item":[{"name":"Login","request":{}}]}` is labelled "Login" |
| Annotator.ExampleOutOfRange | linter.py:69-71 | `item.5.request` in the same document is labelled `item.5.request` with an IndexError for index 5 |
| Paths.Step | linter.py:55-57 | A descent fails with not-an-index exactly on a list with a non-integer segment, with not-subscriptable exactly on a non-container, and with a missing key exactly on an object without that key; on an object holding the key it returns that key's value; on a list it returns item k for 0 <= k < n, item n+k for -n <= k < 0, and an IndexError otherwise |
| Paths.StepListIndex | linter.py:55-57 | On a list of length n, integer k selects item k for 0 <= k < n and item n+k for -n <= k < 0; any other k is an IndexError |
| Paths.ResolveConcat | linter.py:54-57 | Walking a + b is walking a, then b from where a ended; a failure on a is the failure of the whole walk |
| Paths.ResolveEmbed | linter.py:53-57 | Resolution inverts document construction: walking p in the document built to place a leaf at p reaches that leaf |
| Paths.Parent | linter.py:54 | path[:-1] is empty for an empty path, and otherwise the path without its last segment |
| Paths.SplitJoin | linter.py:68 | Splitting the dotted path on '.' gives back the segments when none contains '.' |
| Decimal.ParseInt | linter.py:56 | `int(key)` succeeds exactly on a non-empty run of digits with at most one leading sign; the value is the digits' value, negated after a `-` |
| Decimal.ParseIntRoundTrip | linter.py:56 | `int()` of an integer's decimal text gives back that integer |
| Decimal.NatToStringOfCanonical | linter.py:56 | Rendering the value of canonical digit text gives back that text |
| Json.TruthinessDiffersOnlyOnEmptyContainers | linter.py:65 | Python and JavaScript truth agree on every value except the empty list and the empty object |
| Grouping.FilteredMembers | linter.py:43 | A violation survives the severity filter iff it is in the input and its severity, 0 when missing, is at least 0 |
| Grouping.SelectCount | linter.py:44-48 | The number of filtered violations with message m equals the count of reportable input violations with message m |
| Grouping.FirstSeenMembers | linter.py:41-47 | The group keys are pairwise distinct and are exactly the messages that occur |
| Grouping.FirstSeenOrder | linter.py:41-47 | Group keys are ordered by the position of their first occurrence |
| Grouping.FilteredIsSubsequence | linter.py:42-44 | The filtered violations keep their input order |
| Grouping.SelectIsSubsequence | linter.py:44 | The violations of one message keep their input order |
| Grouping.SubsequenceTransitive | linter.py:42-44 | Order kept within the filtered list is also kept within the original input |
| Grouping.GroupsOfSnocOld | linter.py:44 | Appending a violation whose message already has a group extends that group at its end and changes nothing else |
| Grouping.GroupsOfSnocNew | linter.py:44 | Appending a violation with a new message opens a one-element group at the end |
| Cli.Configure | linter.py:83-109 | Both ids, or `-c` with `-p`, are usage errors (`-w` with `-p` is accepted); otherwise a missing key is an error. The type is collection iff -c or -p is given; the temp file is named after the type; -r overrides the per-type default ruleset; the fetch is remote iff -c or -w is given, and then it fetches the -c id when given, else the -w id; the `-p` file is loaded iff `-p` is given without -c or -w |
| Cli.UsageErrorsIgnoreApiKey | linter.py:83-92 | The usage errors are decided before the API key is read: they do not depend on the key |
| Cli.TempFileRoundTrip | linter.py:94-96 | The temporary file name determines the resource type |
| Cli.WorkspaceWithPathFetchesCollection | linter.py:85-106 | As written, `-w W -p F` passes the checks and fetches W remotely, typed as a collection |
| Cli.NoSourceFlagsPassChecks | linter.py:94-109 | As written, no -c, -w or -p passes every check and reaches the fetch step with no input |
| Cli.ConfigureChecked | linter.py:83-109 | The corrected checks: a configuration they accept is the one the code builds |
| Cli.ConfigureCheckedSound | linter.py:83-109 | Under the corrected checks there is always an input; it is remote as a workspace iff -w, remote as a collection iff -c, a file iff -p |
| Cli.ConfigureCheckedRejects | linter.py:83-86 | The corrected checks give a usage error iff two of -c, -w, -p are combined or none is given |
| FolderDescription.Rule | rulesets/functions/folderDescription.js:1-16 | The rule throws iff the document is null, `item` is not iterable, or an item is null; otherwise it returns no result when no item lacks both fields, else the non-empty reference list of messages |
| FolderDescription.ExpectedConcat | rulesets/functions/folderDescription.js:8-12 | The messages for consecutive item lists concatenate, so errors come in item order |
| FolderDescription.ExpectedCount | rulesets/functions/folderDescription.js:8-11 | There are exactly as many messages as items lacking both `request` and `description` |
| FolderDescription.ItemContribution | rulesets/functions/folderDescription.js:9-10 | Wherever it stands, a lacking item adds exactly `Folder "<name>" requires description.` in its place; an item with a truthy request or description adds nothing |
| FolderDescription.NestedItemsNotVisited | rulesets/functions/folderDescription.js:7-9 | Changing an item's nested `item` folders never changes the messages |
| FolderDescription.WrapperHidesOuterItems | rulesets/functions/folderDescription.js:4-7 | With a truthy `collection` wrapper, its contents are inspected and the outer document's `item` is ignored |
| FolderDescription.NoWrapperInspectsDocument | rulesets/functions/folderDescription.js:4-7 | Without a truthy wrapper, the document's own `item` list is inspected |
| FolderDescription.ExampleOneFolder | rulesets/functions/folderDescription.js:8-11 | A folder "Auth" with neither field beside a request "Login" gives exactly one message, naming "Auth" |

## Left out

- `fetch_json_from_postman` (linter.py:9-20) is not modelled. It is an HTTP request plus its status handling.
- `lint_json` (linter.py:22-37) is not modelled. It runs the external Spectral process and decodes its output, so the list of violations is an input to the model.
- File I/O in `main` is not modelled: loading `-p`, writing the temporary file, writing `-o`. Neither are the console output and `sys.exit`. The report is returned as data: groups of entries, each with its label.
- Exit statuses are not modelled. Usage errors (status 2 through argparse) and the missing-key exit (status 1) appear only as the error values of `Cli.Configure`.
- Annotator.LabelOf and Annotator.ProcessResults require that no walk applies a segment to a list that Decimal.ParseInt rejects (`Annotatable`, `ReportReady`). For a non-integer segment the source raises an uncaught ValueError, which ends the run. The requirement also excludes segments that Python's `int()` accepts but ParseInt does not, such as `" 5"` or `"1_0"`; the source labels those normally, and the model says nothing about them.
- Decimal.ParseInt accepts only an optional sign followed by ASCII digits. Python's `int()` also accepts surrounding whitespace, underscores and non-ASCII digits. Such segments are treated as non-integers.
- Path segments are strings. An integer segment makes `'.'.join` raise an uncaught TypeError whenever the label is the dotted path (linter.py:68-70); under a named parent it is labelled normally. Integer segments are not modelled. A violation without a `message` or `path`, or with a non-integer severity, would raise as well; none of these are modelled either.
- JSON numbers are integers. Fractional numbers, and how Python and JavaScript test and render them, are not modelled.
- Objects are maps, so duplicate keys in the JSON text (the last one wins) are not represented.
- The failure recorded for a failed walk is its kind (missing key, index out of range, not subscriptable), not the Python exception's text.
- FolderDescription models JavaScript truthiness and `String()` for JSON values only. It does not model the `path` fields Spectral adds to each error, or how Spectral reports a rule that throws.
- FolderDescription.JsString renders every integer exactly. JavaScript holds JSON numbers as doubles, so a `name` above 2^53 loses precision (9007199254740993 renders as 9007199254740992), and a `name` of 10^21 or more renders in exponent form (`1e+21`).

## Findings

| source | as written | input that shows it | evidently intended | confidence | as-written member | corrected member |
|---|---|---|---|---|---|---|
| linter.py:85 | `-p` is rejected only together with `-c` | `-w W -p F`: the type becomes collection and W is fetched remotely as a collection; F is ignored | a path is for collections only, so `-p` with `-w` is a usage error | high, not executed | Cli.WorkspaceWithPathFetchesCollection | Cli.ConfigureChecked |
| linter.py:105-113 | nothing requires one of `-c`, `-w`, `-p` | no input flags: every check passes, neither fetch branch runs, and writing the unbound document fails | a usage error when no document is named | high, not executed | Cli.NoSourceFlagsPassChecks | Cli.ConfigureCheckedSound |

=== FILE: annotator.dfy ===
/** The report of `process_results` in linter.py: reportable violations
    grouped by message, each labelled by walking the source document. */
module Annotator {
  import opened Wrappers
  import opened Json
  import opened Paths
  import opened Grouping

  /** What the report prints for one violation: `Name: <name>`, or
      `Path: <dotted path>`, or that line followed by the walk's error. */
  datatype Label =
    | Named(name: Value)
    | Dotted(path: string)
    | Unresolved(path: string, failure: Failure)

  /** The walk to the parent of `p` does not hit the ValueError the source
      leaves uncaught (a non-integer segment applied to a list). */
  predicate Annotatable(doc: Value, p: Path) {
    var r := Resolve(doc, Parent(p));
    !(r.Failure? && r.error.NotAnIndex?)
  }

  /** The label of a violation at `p`: the parent node's truthy `name`,
      else the dotted path, else (walk failed) the dotted path and the error. */
  function LabelOf(doc: Value, p: Path): (l: Label)
    requires Annotatable(doc, p)
    ensures l.Unresolved? <==> Resolve(doc, Parent(p)).Failure?
    ensures l.Unresolved? ==> l.failure == Resolve(doc, Parent(p)).error
    ensures l.Named? <==>
      Resolve(doc, Parent(p)).Success? && NamedBy(Resolve(doc, Parent(p)).value).Some?
    ensures l.Named? ==> l.name == NamedBy(Resolve(doc, Parent(p)).value).value && PyTruthy(l.name)
    ensures !l.Named? ==> l.path == Join(p)
  {
    match Resolve(doc, Parent(p))
    case Failure(e) => Unresolved(Join(p), e)
    case Success(parent) =>
      match NamedBy(parent)
      case Some(name) => Named(name)
      case None => Dotted(Join(p))
  }

  /** The parent's `name` when the parent is an object and the name is truthy. */
  function NamedBy(parent: Value): Option<Value> {
    match Member(parent, "name")
    case Some(name) => if PyTruthy(name) then Some(name) else None
    case None => None
  }

  datatype Entry = Entry(violation: Violation, annotation: Label)

  /** One block of the report: a message and its violations in input order. */
  datatype Group = Group(message: string, entries: seq<Entry>) {
    /** The number printed as `<count> occurrences of: <message>`. */
    function Count(): nat {
      |entries|
    }
  }

  /** Every violation the report will label can be labelled. */
  predicate ReportReady(doc: Value, results: seq<Violation>) {
    forall v :: v in results && Reportable(v) ==> Annotatable(doc, v.path)
  }

  function ViolationsOf(es: seq<Entry>): (vs: seq<Violation>)
    ensures |vs| == |es|
    ensures forall i :: 0 <= i < |es| ==> vs[i] == es[i].violation
  {
    seq(|es|, i requires 0 <= i < |es| => es[i].violation)
  }

  /** Labels each violation of `vs` in place. */
  function Annotate(doc: Value, vs: seq<Violation>): (es: seq<Entry>)
    requires forall v :: v in vs ==> Annotatable(doc, v.path)
    ensures ViolationsOf(es) == vs
    ensures forall i :: 0 <= i < |vs| ==> es[i].annotation == LabelOf(doc, vs[i].path)
  {
    seq(|vs|, i requires 0 <= i < |vs| => Entry(vs[i], LabelOf(doc, vs[i].path)))
  }

  /** Every violation of every group can be labelled. */
  predicate GroupsReady(doc: Value, gs: seq<(string, seq<Violation>)>) {
    forall i, v :: 0 <= i < |gs| && v in gs[i].1 ==> Annotatable(doc, v.path)
  }

  /** Labels every group, keeping messages and violations in place. */
  function Labelled(doc: Value, gs: seq<(string, seq<Violation>)>): (r: seq<Group>)
    requires GroupsReady(doc, gs)
    ensures |r| == |gs|
    ensures forall i :: 0 <= i < |gs| ==> r[i].message == gs[i].0 && ViolationsOf(r[i].entries) == gs[i].1
  {
    seq(|gs|, i requires 0 <= i < |gs| => Group(gs[i].0, Annotate(doc, gs[i].1)))
  }

  lemma GroupsOfReady(doc: Value, results: seq<Violation>)
    requires ReportReady(doc, results)
    ensures GroupsReady(doc, GroupsOf(Filtered(results)))
  {
    var f := Filtered(results);
    FilteredMembers(results);
    forall i, v | 0 <= i < |GroupsOf(f)| && v in GroupsOf(f)[i].1
      ensures Annotatable(doc, v.path)
    {
      SelectMembers(f, FirstSeen(f)[i]);
    }
  }

  /** The report: the reference grouping of the reportable violations, labelled. */
  function Report(doc: Value, results: seq<Violation>): seq<Group>
    requires ReportReady(doc, results)
  {
    GroupsOfReady(doc, results);
    Labelled(doc, GroupsOf(Filtered(results)))
  }

  /** `process_results`: one pass filters by severity and appends each kept
      violation to its message's group (a dictionary from message to group
      position), then every group is labelled. */
  method ProcessResults(doc: Value, results: seq<Violation>) returns (report: seq<Group>)
    requires ReportReady(doc, results)
    ensures report == Report(doc, results)
  {
    var groups: seq<(string, seq<Violation>)> := [];
    var index: map<string, nat> := map[];
    ghost var f: seq<Violation> := [];
    var k := 0;
    while k < |results|
      invariant 0 <= k <= |results|
      invariant f == Filtered(results[..k])
      invariant groups == GroupsOf(f)
      invariant forall m :: m in index <==> m in FirstSeen(f)
      invariant forall m :: m in index ==> index[m] < |FirstSeen(f)| && FirstSeen(f)[index[m]] == m
    {
      var v := results[k];
      assert results[..k + 1] == results[..k] + [v];
      FilteredSnoc(results[..k], v);
      if SeverityOf(v) >= 0 {
        FirstSeenSnoc(f, v);
        if v.message in index {
          var g := index[v.message];
          GroupsOfSnocOld(f, v, g);
          groups := groups[g := (v.message, groups[g].1 + [v])];
        } else {
          GroupsOfSnocNew(f, v);
          index := index[v.message := |groups|];
          groups := groups + [(v.message, [v])];
        }
        f := f + [v];
      }
      k := k + 1;
    }
    assert results[..k] == results;
    GroupsOfReady(doc, results);
    report := Labelled(doc, groups);
  }

  /** Some group of the report holds violation `v`. */
  predicate InReport(report: seq<Group>, v: Violation) {
    exists i, j :: 0 <= i < |report| && 0 <= j < |report[i].entries| && report[i].entries[j].violation == v
  }

  /** The report's groups, message by message, hold the reference grouping. */
  lemma ReportShape(doc: Value, results: seq<Violation>)
    requires ReportReady(doc, results)
    ensures |Report(doc, results)| == |FirstSeen(Filtered(results))|
    ensures forall i :: 0 <= i < |Report(doc, results)| ==>
      && Report(doc, results)[i].message == FirstSeen(Filtered(results))[i]
      && ViolationsOf(Report(doc, results)[i].entries) == Select(Filtered(results), FirstSeen(Filtered(results))[i])
  {
  }

  /** A violation is reported exactly when it occurs in the input with a
      severity of at least 0, a missing severity counting as 0. A walk that
      fails does not drop its violation. */
  lemma ReportMembership(doc: Value, results: seq<Violation>)
    requires ReportReady(doc, results)
    ensures forall v :: InReport(Report(doc, results), v) <==> v in results && SeverityOf(v) >= 0
  {
    var f := Filtered(results);
    var ms := FirstSeen(f);
    var r := Report(doc, results);
    ReportShape(doc, results);
    FilteredMembers(results);
    forall v | InReport(r, v)
      ensures v in f
    {
      var i, j :| 0 <= i < |r| && 0 <= j < |r[i].entries| && r[i].entries[j].violation == v;
      SelectMembers(f, ms[i]);
      assert ViolationsOf(r[i].entries)[j] == v;
    }
    forall v | v in f
      ensures InReport(r, v)
    {
      FirstSeenMembers(f);
      var k :| 0 <= k < |f| && f[k] == v;
      assert Mentions(f, v.message);
      var i :| 0 <= i < |ms| && ms[i] == v.message;
      SelectMembers(f, ms[i]);
      var sel := Select(f, ms[i]);
      var j :| 0 <= j < |sel| && sel[j] == v;
      assert ViolationsOf(r[i].entries)[j] == v;
    }
  }

  /** Some group of the report is headed by message `m`. */
  predicate HasGroup(report: seq<Group>, m: string) {
    exists i :: 0 <= i < |report| && report[i].message == m
  }

  /** Some reportable violation of the input carries message `m`. */
  predicate ReportableMessage(results: seq<Violation>, m: string) {
    exists v :: v in results && Reportable(v) && v.message == m
  }

  /** Group keys are pairwise distinct, and a message heads a group exactly
      when some reportable violation carries it. */
  lemma ReportMessages(doc: Value, results: seq<Violation>)
    requires ReportReady(doc, results)
    ensures forall i, j :: 0 <= i < j < |Report(doc, results)| ==>
      Report(doc, results)[i].message != Report(doc, results)[j].message
    ensures forall m :: HasGroup(Report(doc, results), m) <==> ReportableMessage(results, m)
  {
    var f := Filtered(results);
    var ms := FirstSeen(f);
    var r := Report(doc, results);
    ReportShape(doc, results);
    FirstSeenMembers(f);
    forall m
      ensures HasGroup(r, m) <==> ReportableMessage(results, m)
    {
      MentionsFiltered(results, m);
      if Mentions(f, m) {
        var i :| 0 <= i < |ms| && ms[i] == m;
        assert r[i].message == m;
      }
    }
  }

  lemma MentionsFiltered(results: seq<Violation>, m: string)
    ensures Mentions(Filtered(results), m) <==> ReportableMessage(results, m)
  {
    var f := Filtered(results);
    FilteredMembers(results);
    if Mentions(f, m) {
      var k :| 0 <= k < |f| && f[k].message == m;
      assert f[k] in f;
    }
    if ReportableMessage(results, m) {
      var v :| v in results && Reportable(v) && v.message == m;
      var k :| 0 <= k < |f| && f[k] == v;
    }
  }

  /** Each group's count is the number of reportable violations carrying
      exactly its message; its violations all carry that message and keep
      their relative input order. */
  lemma ReportGroups(doc: Value, results: seq<Violation>)
    requires ReportReady(doc, results)
    ensures forall i :: 0 <= i < |Report(doc, results)| ==>
      Report(doc, results)[i].Count() == Occurrences(results, Report(doc, results)[i].message)
    ensures forall i, j :: 0 <= i < |Report(doc, results)| && 0 <= j < |Report(doc, results)[i].entries| ==>
      Report(doc, results)[i].entries[j].violation.message == Report(doc, results)[i].message
    ensures forall i :: 0 <= i < |Report(doc, results)| ==>
      Subsequence(ViolationsOf(Report(doc, results)[i].entries), results)
  {
    var f := Filtered(results);
    var ms := FirstSeen(f);
    var gs := GroupsOf(f);
    var r := Report(doc, results);
    FilteredIsSubsequence(results);
    forall i | 0 <= i < |r|
      ensures r[i].Count() == Occurrences(results, r[i].message)
      ensures forall j :: 0 <= j < |r[i].entries| ==> r[i].entries[j].violation.message == r[i].message
      ensures Subsequence(ViolationsOf(r[i].entries), results)
    {
      var sel := Select(f, ms[i]);
      assert r[i].message == ms[i];
      assert ViolationsOf(r[i].entries) == gs[i].1 == sel;
      SelectCount(results, ms[i]);
      SelectMembers(f, ms[i]);
      forall j | 0 <= j < |r[i].entries|
        ensures r[i].entries[j].violation.message == r[i].message
      {
        assert r[i].entries[j].violation == sel[j];
        assert sel[j] in sel;
      }
      SelectIsSubsequence(f, ms[i]);
      SubsequenceTransitive(sel, f, results);
    }
  }

  /** Groups appear in the order their messages first occur among the
      reportable violations. */
  lemma ReportOrder(doc: Value, results: seq<Violation>)
    requires ReportReady(doc, results)
    ensures forall i, j, ki, kj ::
      0 <= i < j < |Report(doc, results)| &&
      FirstAt(Filtered(results), Report(doc, results)[i].message, ki) &&
      FirstAt(Filtered(results), Report(doc, results)[j].message, kj)
      ==> ki < kj
  {
    var r := Report(doc, results);
    assert forall i :: 0 <= i < |r| ==> r[i].message == FirstSeen(Filtered(results))[i];
    FirstSeenOrder(Filtered(results));
  }

  /** Only `path[:-1]` is walked: once the walk reaches an object with a
      truthy `name`, the last segment is never looked up. */
  lemma LabelIgnoresLastSegment(doc: Value, q: Path, s: string, fields: map<string, Value>)
    requires Resolve(doc, q) == Success(Object(fields))
    requires "name" in fields && PyTruthy(fields["name"])
    ensures Annotatable(doc, q + [s])
    ensures LabelOf(doc, q + [s]) == Named(fields["name"])
  {
    assert Parent(q + [s]) == q;
  }

  /** Once path[:-1] reaches a node that is not an object with a truthy
      `name` (a list, a scalar, an object without `name` or with a falsy
      one), the label is the dotted path of the whole path. */
  lemma LabelFallsBackToPath(doc: Value, q: Path, s: string, x: Value)
    requires Resolve(doc, q) == Success(x)
    requires !(x.Object? && "name" in x.fields && PyTruthy(x.fields["name"]))
    ensures Annotatable(doc, q + [s])
    ensures LabelOf(doc, q + [s]) == Dotted(Join(q + [s]))
  {
    assert Parent(q + [s]) == q;
  }

  /** Every entry of the report carries the label of its own violation's path. */
  lemma ReportLabels(doc: Value, results: seq<Violation>)
    requires ReportReady(doc, results)
    ensures forall i, j :: 0 <= i < |Report(doc, results)| && 0 <= j < |Report(doc, results)[i].entries| ==>
      && Annotatable(doc, Report(doc, results)[i].entries[j].violation.path)
      && Report(doc, results)[i].entries[j].annotation
         == LabelOf(doc, Report(doc, results)[i].entries[j].violation.path)
  {
    var f := Filtered(results);
    var gs := GroupsOf(f);
    var r := Report(doc, results);
    GroupsOfReady(doc, results);
    forall i, j | 0 <= i < |r| && 0 <= j < |r[i].entries|
      ensures Annotatable(doc, r[i].entries[j].violation.path)
      ensures r[i].entries[j].annotation == LabelOf(doc, r[i].entries[j].violation.path)
    {
      assert r[i] == Group(gs[i].0, Annotate(doc, gs[i].1));
      assert r[i].entries[j].violation == gs[i].1[j];
      assert gs[i].1[j] in gs[i].1;
    }
  }

  /** A path of at most one segment labels with the root's own `name`. */
  lemma LabelOfShortPath(doc: Value, p: Path)
    requires |p| <= 1
    ensures Annotatable(doc, p)
    ensures LabelOf(doc, p) ==
      if doc.Object? && "name" in doc.fields && PyTruthy(doc.fields["name"])
      then Named(doc.fields["name"]) else Dotted(Join(p))
  {
    assert Parent(p) == [];
  }

  /** In the smallest document that places an object with a truthy `name`
      at the end of `q`, that name labels every violation one segment below. */
  lemma LabelOfEmbedded(q: Path, s: string, fields: map<string, Value>)
    requires "name" in fields && PyTruthy(fields["name"])
    ensures Annotatable(Embed(q, Object(fields)), q + [s])
    ensures LabelOf(Embed(q, Object(fields)), q + [s]) == Named(fields["name"])
  {
    ResolveEmbed(q, Object(fields));
    LabelIgnoresLastSegment(Embed(q, Object(fields)), q, s, fields);
  }

  /** A walk that fails on a prefix of the parent path fails for the whole
      path with the same error, and the label falls back to the dotted path. */
  lemma LabelAfterFailedPrefix(doc: Value, a: Path, b: Path, e: Failure)
    requires Resolve(doc, a) == Failure(e) && !e.NotAnIndex?
    requires |b| > 0
    ensures Annotatable(doc, a + b)
    ensures LabelOf(doc, a + b) == Unresolved(Join(a + b), e)
  {
    var p := a + b;
    assert Parent(p) == a + Parent(b);
    ResolveConcat(doc, a, Parent(b));
  }

  /** The worked example: `item[0]` has name "Login". */
  lemma ExampleNamedParent()
    ensures var doc := Object(map["item" := Array([Object(map["name" := String("Login"), "request" := Object(map[])])])]);
      LabelOf(doc, ["item", "0", "request"]) == Named(String("Login"))
  {
    var doc := Object(map["item" := Array([Object(map["name" := String("Login"), "request" := Object(map[])])])]);
    var p: Path := ["item", "0", "request"];
    assert Parent(p) == ["item", "0"];
    Decimal.ParseIntRoundTrip(0);
    assert Decimal.IntToString(0) == "0";
  }

  /** The worked example: `item[5]` is out of range, so the label is the
      dotted path with an IndexError. */
  lemma ExampleOutOfRange()
    ensures var doc := Object(map["item" := Array([Object(map["name" := String("Login"), "request" := Object(map[])])])]);
      LabelOf(doc, ["item", "5", "request"]) == Unresolved("item.5.request", IndexOutOfRange(5))
  {
    var p: Path := ["item", "5", "request"];
    assert Parent(p) == ["item", "5"];
    Decimal.ParseIntRoundTrip(5);
    assert Decimal.IntToString(5) == "5";
  }
}

=== FILE: cli.dfy ===
/** The argument checks and run configuration of `main` in linter.py. */
module Cli {
  import opened Wrappers

  /** The parsed command line; an absent flag is None. */
  datatype Args = Args(
    collection: Option<string>,  // -c
    workspace: Option<string>,   // -w
    ruleset: Option<string>,     // -r
    path: Option<string>,        // -p
    output: Option<string>)      // -o

  /** Python's `bool(args.x)`: present and not the empty string. */
  predicate Given(o: Option<string>) {
    o.Some? && o.value != ""
  }

  datatype ResourceType = Collection | Workspace

  function TypeName(t: ResourceType): string {
    match t
    case Collection => "collection"
    case Workspace => "workspace"
  }

  /** The file the document is written to before linting. */
  function TempFileName(t: ResourceType): string {
    "_" + TypeName(t) + ".json"
  }

  /** The ruleset used when `-r` is not given. */
  function DefaultRuleset(t: ResourceType): string {
    match t
    case Collection => "./rulesets/collection-rules.yaml"
    case Workspace => "./rulesets/rules.yaml"
  }

  /** Where the document comes from. NoInput is the case in which neither
      branch of the fetch step runs and the source document stays unbound. */
  datatype Input = Remote(uid: string) | LocalFile(file: string) | NoInput

  datatype Config = Config(
    resourceType: ResourceType,
    uid: Option<string>,
    sourceFile: string,
    ruleset: string,
    input: Input,
    output: Option<string>,
    apiKey: string)

  /** BothIds and IdAndPath are the two `parser.error` usage errors;
      NoSource is raised only by the corrected checks. */
  datatype ConfigError = BothIds | IdAndPath | MissingApiKey | NoSource

  /** The decisions of `main` before any fetching, as written. `apiKey` is
      the value of the POSTMAN_API_KEY environment variable. */
  function Configure(a: Args, apiKey: Option<string>): (r: Result<Config, ConfigError>)
    ensures r == Failure(BothIds) <==> Given(a.collection) && Given(a.workspace)
    ensures r == Failure(IdAndPath) <==> Given(a.collection) && !Given(a.workspace) && Given(a.path)
    ensures r == Failure(MissingApiKey) <==> !(Given(a.collection) && (Given(a.workspace) || Given(a.path))) && !Given(apiKey)
    ensures r != Failure(NoSource)
    ensures r.Success? ==> (r.value.resourceType == Collection <==> Given(a.collection) || Given(a.path))
    ensures r.Success? ==> r.value.sourceFile == TempFileName(r.value.resourceType)
    ensures r.Success? ==> r.value.ruleset == if Given(a.ruleset) then a.ruleset.value else DefaultRuleset(r.value.resourceType)
    ensures r.Success? ==> (r.value.input.Remote? <==> Given(a.collection) || Given(a.workspace))
    ensures r.Success? ==> r.value.uid == if Given(a.collection) then a.collection else a.workspace
    ensures r.Success? && r.value.input.Remote? ==>
      r.value.input.uid == if Given(a.collection) then a.collection.value else a.workspace.value
    ensures r.Success? && r.value.input.LocalFile? ==> a.path == Some(r.value.input.file)
    ensures r.Success? ==>
      (r.value.input == LocalFile(a.path.GetOr("")) <==>
       !Given(a.collection) && !Given(a.workspace) && Given(a.path))
  {
    if Given(a.collection) && Given(a.workspace) then Failure(BothIds)
    else if Given(a.collection) && (Given(a.path) || Given(a.workspace)) then Failure(IdAndPath)
    else if !Given(apiKey) then Failure(MissingApiKey)
    else
      var rt := if Given(a.collection) || Given(a.path) then Collection else Workspace;
      var uid := if Given(a.collection) then a.collection else a.workspace;
      var input :=
        if Given(a.collection) || Given(a.workspace) then Remote(uid.value)
        else if Given(a.path) then LocalFile(a.path.value)
        else NoInput;
      Success(Config(
        rt, uid, TempFileName(rt),
        if Given(a.ruleset) then a.ruleset.value else DefaultRuleset(rt),
        input,
        if Given(a.output) then a.output else None,
        apiKey.value))
  }

  /** Reads the resource type back from a temporary file name. */
  function TypeOfTempFile(name: string): Option<ResourceType> {
    if name == TempFileName(Collection) then Some(Collection)
    else if name == TempFileName(Workspace) then Some(Workspace)
    else None
  }

  /** The temporary file name determines the resource type, so collection
      and workspace runs never share a file. */
  lemma TempFileRoundTrip(t: ResourceType)
    ensures TypeOfTempFile(TempFileName(t)) == Some(t)
  {
    if t == Workspace {
      assert TempFileName(Workspace)[1] != TempFileName(Collection)[1];
    }
  }

  /** Usage errors are decided before the API key is consulted. */
  lemma UsageErrorsIgnoreApiKey(a: Args, k1: Option<string>, k2: Option<string>)
    requires Configure(a, k1).Failure? && Configure(a, k1).error != MissingApiKey
    ensures Configure(a, k2) == Configure(a, k1)
  {
  }

  /** As written, `-w W -p F` passes both checks, is typed as a collection,
      and fetches W from the collection endpoint; the file is ignored. */
  lemma WorkspaceWithPathFetchesCollection()
    ensures var r := Configure(Args(None, Some("W"), None, Some("F"), None), Some("key"));
      r.Success? && r.value.resourceType == Collection && r.value.input == Remote("W")
      && r.value.ruleset == "./rulesets/collection-rules.yaml"
  {
  }

  /** As written, a run with none of `-c`, `-w`, `-p` passes every check
      and reaches the fetch step with no document to fetch or load. */
  lemma NoSourceFlagsPassChecks()
    ensures var r := Configure(Args(None, None, None, None, None), Some("key"));
      r.Success? && r.value.input == NoInput && r.value.resourceType == Workspace
  {
  }

  /** The checks the program's own texts call for: the `-p` help marks a
      path as for collections only, and the two usage messages ask for one
      collection or workspace id, and for a path or an id but not both. So
      exactly one of `-c`, `-w`, `-p`. */
  function ConfigureChecked(a: Args, apiKey: Option<string>): (r: Result<Config, ConfigError>)
    ensures r.Success? ==> r == Configure(a, apiKey)
  {
    if Given(a.collection) && Given(a.workspace) then Failure(BothIds)
    else if Given(a.path) && (Given(a.collection) || Given(a.workspace)) then Failure(IdAndPath)
    else if !Given(a.collection) && !Given(a.workspace) && !Given(a.path) then Failure(NoSource)
    else Configure(a, apiKey)
  }

  /** With the corrected checks the resource type always matches the flag
      that named the document, and there is always a document. */
  lemma ConfigureCheckedSound(a: Args, apiKey: Option<string>)
    requires ConfigureChecked(a, apiKey).Success?
    ensures var c := ConfigureChecked(a, apiKey).value;
      && c.input != NoInput
      && (c.input.Remote? && c.resourceType == Workspace <==> Given(a.workspace))
      && (c.input.Remote? && c.resourceType == Collection <==> Given(a.collection))
      && (c.input.LocalFile? <==> Given(a.path))
  {
  }

  /** The corrected checks reject exactly what the `-p` help and the two usage messages forbid,
      and otherwise agree with the code as written. */
  lemma ConfigureCheckedRejects(a: Args, apiKey: Option<string>)
    ensures (ConfigureChecked(a, apiKey).Failure? && ConfigureChecked(a, apiKey).error != MissingApiKey) <==>
      ((Given(a.collection) && Given(a.workspace))
       || (Given(a.path) && (Given(a.collection) || Given(a.workspace)))
       || (!Given(a.collection) && !Given(a.workspace) && !Given(a.path)))
  {
  }
}

=== FILE: decimal.dfy ===
/** Decimal text for integers: Python's `int(text)` on a path segment and the
    way integers are rendered as text. */
module Decimal {
  import opened Wrappers

  predicate IsDigit(c: char) {
    '0' <= c <= '9'
  }

  predicate AllDigits(s: string) {
    forall i :: 0 <= i < |s| ==> IsDigit(s[i])
  }

  function DigitChar(d: nat): (c: char)
    requires d < 10
    ensures IsDigit(c)
  {
    ('0' as int + d) as char
  }

  /** The value of a string of ASCII digits, most significant first. */
  function DigitsValue(s: string): nat
    requires AllDigits(s)
    decreases |s|
  {
    if |s| == 0 then 0
    else DigitsValue(s[..|s| - 1]) * 10 + (s[|s| - 1] as int - '0' as int)
  }

  /** The shortest decimal rendering of `n`. */
  function NatToString(n: nat): (s: string)
    ensures |s| > 0 && AllDigits(s)
  {
    if n < 10 then [DigitChar(n)]
    else NatToString(n / 10) + [DigitChar(n % 10)]
  }

  /** The decimal rendering of `i`, with a leading '-' when negative. */
  function IntToString(i: int): string {
    if i < 0 then "-" + NatToString(-i) else NatToString(i)
  }

  /** A non-empty run of ASCII digits, or None. */
  function ParseNat(s: string): (r: Option<nat>)
    ensures r.Some? <==> |s| > 0 && AllDigits(s)
  {
    if |s| > 0 && AllDigits(s) then Some(DigitsValue(s)) else None
  }

  /** Python's `int(text)` restricted to an optional sign followed by ASCII
      digits; None where Python would raise ValueError. */
  function ParseInt(s: string): (r: Option<int>)
    ensures r.Some? ==> |s| > 0
    ensures r.Some? && r.value < 0 ==> s[0] == '-'
    ensures r.Some? <==>
      |s| > 0 && (AllDigits(s) || ((s[0] == '-' || s[0] == '+') && |s| > 1 && AllDigits(s[1..])))
    ensures r.Some? && AllDigits(s) ==> r.value == DigitsValue(s)
    ensures r.Some? && !AllDigits(s) ==>
      r.value == (if s[0] == '-' then 0 - DigitsValue(s[1..]) as int else DigitsValue(s[1..]))
  {
    if |s| > 0 && (s[0] == '-' || s[0] == '+') then
      match ParseNat(s[1..])
      case Some(n) =>
        var m: int := n;
        var k := if s[0] == '-' then -m else m;
        Some(k)
      case None => None
    else
      match ParseNat(s)
      case Some(n) => Some(n)
      case None => None
  }

  lemma {:induction false} NatRoundTrip(n: nat)
    ensures DigitsValue(NatToString(n)) == n
  {
    if n >= 10 {
      var s := NatToString(n / 10);
      var t := s + [DigitChar(n % 10)];
      assert t[..|t| - 1] == s;
      NatRoundTrip(n / 10);
    }
  }

  /** Parsing inverts rendering for every integer. */
  lemma ParseIntRoundTrip(i: int)
    ensures ParseInt(IntToString(i)) == Some(i)
  {
    if i < 0 {
      var s := "-" + NatToString(-i);
      assert s[1..] == NatToString(-i);
      NatRoundTrip(-i);
    } else {
      NatRoundTrip(i);
    }
  }

  /** Rendering inverts parsing on canonical text: no sign, no leading zero. */
  lemma {:induction false} NatToStringOfCanonical(s: string)
    requires |s| > 0 && AllDigits(s)
    requires |s| > 1 ==> s[0] != '0'
    ensures NatToString(DigitsValue(s)) == s
    decreases |s|
  {
    var n := DigitsValue(s);
    if |s| == 1 {
      assert s[..0] == [];
    } else {
      var p := s[..|s| - 1];
      assert p[0] == s[0];
      NatToStringOfCanonical(p);
      DigitsValuePositive(p);
      assert n / 10 == DigitsValue(p);
      assert s == p + [s[|s| - 1]];
    }
  }

  lemma {:induction false} DigitsValuePositive(s: string)
    requires |s| > 0 && AllDigits(s) && s[0] != '0'
    ensures DigitsValue(s) >= 1
    decreases |s|
  {
    if |s| > 1 {
      var p := s[..|s| - 1];
      assert p[0] == s[0];
      DigitsValuePositive(p);
    }
  }
}

=== FILE: folder_description.dfy ===
/** The custom Spectral rule of rulesets/functions/folderDescription.js:
    every top-level folder without a request needs a description. */
module FolderDescription {
  import opened Wrappers
  import opened Json
  import Decimal

  /** What the rule function gives back: `undefined`, the list of error
      objects (here, their messages), or a thrown TypeError. */
  datatype Outcome = NoResult | Errors(messages: seq<string>) | Throws

  /** JavaScript `String(v)`, as a template literal renders a property value. */
  function JsString(v: Value): string
    decreases v
  {
    match v
    case Null => "null"
    case Bool(b) => if b then "true" else "false"
    case Number(n) => Decimal.IntToString(n)
    case String(s) => s
    case Array(items) => JoinElements(items)
    case Object(_) => "[object Object]"
  }

  /** `Array.prototype.join(",")`: a null element renders as the empty string. */
  function JoinElements(items: seq<Value>): string
    decreases items
  {
    if |items| == 0 then ""
    else
      var head := if items[0] == Null then "" else JsString(items[0]);
      if |items| == 1 then head else head + "," + JoinElements(items[1..])
  }

  /** `!!x[key]` for a non-null `x`; a missing property is `undefined`. */
  predicate PropTruthy(x: Value, key: string) {
    match Member(x, key)
    case Some(v) => JsTruthy(v)
    case None => false
  }

  /** The item's `name` as interpolated into the message: "undefined" when
      the item has none. */
  function NameText(x: Value): string {
    match Member(x, "name")
    case Some(v) => JsString(v)
    case None => "undefined"
  }

  function Message(name: string): string {
    "Folder \"" + name + "\" requires description."
  }

  /** The item has neither a truthy `request` nor a truthy `description`. */
  predicate LacksDescription(x: Value) {
    !PropTruthy(x, "request") && !PropTruthy(x, "description")
  }

  /** The values the loop over the target's `item` property visits; None
      when the loop throws because `item` is missing or not iterable. A
      string is iterated one character at a time. */
  function Items(target: Value): Option<seq<Value>> {
    match Member(target, "item")
    case Some(Array(xs)) => Some(xs)
    case Some(String(s)) => Some(seq(|s|, i requires 0 <= i < |s| => String([s[i]])))
    case _ => None
  }

  /** The items the rule inspects: those of the `collection` wrapper when it
      is truthy, else those of the document itself. None when reading the
      wrapper (of a null document) or iterating `item` throws. */
  function Visited(doc: Value): Option<seq<Value>> {
    if doc == Null then None
    else if PropTruthy(doc, "collection") then Items(doc.fields["collection"])
    else Items(doc)
  }

  /** The reference: one message per item lacking both fields, in item order. */
  function Expected(xs: seq<Value>): seq<string>
    decreases |xs|
  {
    if |xs| == 0 then []
    else
      var x := xs[|xs| - 1];
      Expected(xs[..|xs| - 1]) + if LacksDescription(x) then [Message(NameText(x))] else []
  }

  /** The rule function: unwrap, then push one error per folder lacking
      both `request` and `description`. Reading a property of a null item
      throws. */
  method Rule(doc: Value) returns (out: Outcome)
    ensures out == Throws <==> Visited(doc).None? || Null in Visited(doc).value
    ensures out.Errors? ==> |out.messages| > 0 && out.messages == Expected(Visited(doc).value)
    ensures out == NoResult <==> Visited(doc).Some? && Null !in Visited(doc).value && Expected(Visited(doc).value) == []
  {
    if Visited(doc).None? {
      return Throws;
    }
    var items := Visited(doc).value;
    var errors: seq<string> := [];
    var i := 0;
    while i < |items|
      invariant 0 <= i <= |items|
      invariant errors == Expected(items[..i])
      invariant Null !in items[..i]
    {
      var x := items[i];
      assert items[..i + 1] == items[..i] + [x];
      if x == Null {
        return Throws;
      }
      if LacksDescription(x) {
        errors := errors + [Message(NameText(x))];
      }
      i := i + 1;
    }
    assert items[..i] == items;
    if |errors| > 0 {
      return Errors(errors);
    }
    return NoResult;
  }

  /** Messages of consecutive item lists concatenate: errors come in item order. */
  lemma {:induction false} ExpectedConcat(xs: seq<Value>, ys: seq<Value>)
    ensures Expected(xs + ys) == Expected(xs) + Expected(ys)
    decreases |ys|
  {
    if |ys| == 0 {
      assert xs + ys == xs;
    } else {
      var p := ys[..|ys| - 1];
      var y := ys[|ys| - 1];
      assert xs + ys == (xs + p) + [y];
      assert (xs + ys)[..|xs + ys| - 1] == xs + p;
      ExpectedConcat(xs, p);
    }
  }

  /** The positions of the items lacking both fields. */
  function LackingPositions(xs: seq<Value>): set<nat> {
    set i: nat | i < |xs| && LacksDescription(xs[i])
  }

  /** Exactly one message per lacking item. */
  lemma {:induction false} ExpectedCount(xs: seq<Value>)
    ensures |Expected(xs)| == |LackingPositions(xs)|
    decreases |xs|
  {
    if |xs| > 0 {
      var p := xs[..|xs| - 1];
      var x := xs[|xs| - 1];
      ExpectedCount(p);
      var n := |p|;
      var extra: set<nat> := if LacksDescription(x) then {n} else {};
      forall i: nat
        ensures i in LackingPositions(xs) <==> i in LackingPositions(p) + extra
      {
        if i < n {
          assert xs[i] == p[i];
        }
      }
      assert LackingPositions(xs) == LackingPositions(p) + extra;
      assert n !in LackingPositions(p);
    }
  }

  /** The message of a lacking item names it; an item with a truthy
      `request` or `description` adds nothing wherever it stands. */
  lemma ItemContribution(xs: seq<Value>, x: Value, ys: seq<Value>)
    ensures LacksDescription(x) ==> Expected(xs + [x] + ys) == Expected(xs) + [Message(NameText(x))] + Expected(ys)
    ensures !LacksDescription(x) ==> Expected(xs + [x] + ys) == Expected(xs + ys)
  {
    ExpectedConcat(xs + [x], ys);
    ExpectedConcat(xs, [x]);
    ExpectedConcat(xs, ys);
    assert [x][..0] == [];
  }

  /** Only the top-level `request`, `description` and `name` of an item are
      read: its nested `item` folders are never visited. */
  lemma NestedItemsNotVisited(fields: map<string, Value>, nested: Value)
    ensures Expected([Object(fields)]) == Expected([Object(fields["item" := nested])])
  {
    var x := Object(fields);
    var y := Object(fields["item" := nested]);
    assert [x][..0] == [] && [y][..0] == [];
    assert Member(x, "request") == Member(y, "request");
    assert Member(x, "description") == Member(y, "description");
    assert Member(x, "name") == Member(y, "name");
  }

  /** A truthy `collection` wrapper replaces the document: the `item` inside
      the wrapper is inspected, and the outer document's own `item` is ignored. */
  lemma WrapperHidesOuterItems(fields: map<string, Value>, outer: Value)
    requires "collection" in fields && JsTruthy(fields["collection"])
    ensures Visited(Object(fields)) == Items(fields["collection"])
    ensures Visited(Object(fields["item" := outer])) == Visited(Object(fields))
  {
  }

  /** Without a truthy wrapper the document's own `item` list is inspected. */
  lemma NoWrapperInspectsDocument(fields: map<string, Value>, xs: seq<Value>)
    requires "collection" !in fields || !JsTruthy(fields["collection"])
    ensures Visited(Object(fields["item" := Array(xs)])) == Some(xs)
  {
  }

  /** A folder named "Auth" with neither field yields one error naming it;
      a request beside it yields none. */
  lemma ExampleOneFolder()
    ensures Expected([Object(map["name" := String("Auth"), "item" := Array([])]),
                      Object(map["name" := String("Login"), "request" := Object(map[])])])
      == ["Folder \"Auth\" requires description."]
  {
    var a := Object(map["name" := String("Auth"), "item" := Array([])]);
    var b := Object(map["name" := String("Login"), "request" := Object(map[])]);
    assert [a, b][..1] == [a];
    assert [a][..0] == [];
    assert NameText(a) == "Auth";
    assert LacksDescription(a) && !LacksDescription(b);
    assert Expected([a]) == [Message("Auth")];
    assert Expected([a, b]) == Expected([a]);
    assert Message("Auth") == "Folder \"Auth\" requires description.";
  }
}

=== FILE: grouping.dfy ===
/** Severity filtering and grouping by message, the first loop of
    `process_results` in linter.py, given as reference definitions. */
module Grouping {
  import opened Wrappers

  /** One entry of the linter's output. A missing `severity` is None. */
  datatype Violation = Violation(message: string, path: seq<string>, severity: Option<int>)

  /** The violation's severity, 0 when it has none. */
  function SeverityOf(v: Violation): int {
    v.severity.GetOr(0)
  }

  /** Whether the violation is kept for the report. */
  predicate Reportable(v: Violation) {
    SeverityOf(v) >= 0
  }

  /** The reportable violations, in input order. */
  function Filtered(vs: seq<Violation>): seq<Violation>
    decreases |vs|
  {
    if |vs| == 0 then []
    else (if Reportable(vs[0]) then [vs[0]] else []) + Filtered(vs[1..])
  }

  /** The violations carrying message `m`, in input order. */
  function Select(vs: seq<Violation>, m: string): seq<Violation>
    decreases |vs|
  {
    if |vs| == 0 then []
    else (if vs[0].message == m then [vs[0]] else []) + Select(vs[1..], m)
  }

  /** The distinct messages of `vs`, each at the place it first occurs. */
  function FirstSeen(vs: seq<Violation>): seq<string>
    decreases |vs|
  {
    if |vs| == 0 then []
    else
      var ms := FirstSeen(vs[..|vs| - 1]);
      var m := vs[|vs| - 1].message;
      if m in ms then ms else ms + [m]
  }

  /** How many reportable violations of the raw input carry message `m`. */
  function Occurrences(rs: seq<Violation>, m: string): nat
    decreases |rs|
  {
    if |rs| == 0 then 0
    else (if Reportable(rs[0]) && rs[0].message == m then 1 else 0) + Occurrences(rs[1..], m)
  }

  /** `a` is `b` with some elements dropped and the rest in the same order. */
  predicate Subsequence<T(==)>(a: seq<T>, b: seq<T>)
    decreases |b|
  {
    if |a| == 0 then true
    else if |b| == 0 then false
    else (a[0] == b[0] && Subsequence(a[1..], b[1..])) || Subsequence(a, b[1..])
  }

  /** Some violation of `vs` carries message `m`. */
  predicate Mentions(vs: seq<Violation>, m: string) {
    exists i :: 0 <= i < |vs| && vs[i].message == m
  }

  /** `k` is the first position of `vs` whose message is `m`. */
  predicate FirstAt(vs: seq<Violation>, m: string, k: int) {
    && 0 <= k < |vs|
    && vs[k].message == m
    && forall j :: 0 <= j < k ==> vs[j].message != m
  }

  predicate Distinct<T(==)>(s: seq<T>) {
    forall i, j :: 0 <= i < j < |s| ==> s[i] != s[j]
  }

  lemma {:induction false} FilteredMembers(vs: seq<Violation>)
    ensures forall v :: v in Filtered(vs) <==> v in vs && Reportable(v)
    decreases |vs|
  {
    if |vs| > 0 {
      FilteredMembers(vs[1..]);
      assert vs == [vs[0]] + vs[1..];
    }
  }

  lemma {:induction false} SelectMembers(vs: seq<Violation>, m: string)
    ensures forall v :: v in Select(vs, m) <==> v in vs && v.message == m
    decreases |vs|
  {
    if |vs| > 0 {
      SelectMembers(vs[1..], m);
      assert vs == [vs[0]] + vs[1..];
    }
  }

  lemma {:induction false} FilteredSnoc(vs: seq<Violation>, v: Violation)
    ensures Filtered(vs + [v]) == Filtered(vs) + (if Reportable(v) then [v] else [])
    decreases |vs|
  {
    var tail := if Reportable(v) then [v] else [];
    if |vs| == 0 {
      assert Filtered([v]) == tail + Filtered([]);
    } else {
      var head := if Reportable(vs[0]) then [vs[0]] else [];
      assert (vs + [v])[0] == vs[0];
      assert (vs + [v])[1..] == vs[1..] + [v];
      assert Filtered(vs + [v]) == head + Filtered(vs[1..] + [v]);
      FilteredSnoc(vs[1..], v);
      assert Filtered(vs) == head + Filtered(vs[1..]);
    }
  }

  lemma {:induction false} SelectSnoc(vs: seq<Violation>, v: Violation, m: string)
    ensures Select(vs + [v], m) == Select(vs, m) + (if v.message == m then [v] else [])
    decreases |vs|
  {
    var tail := if v.message == m then [v] else [];
    if |vs| == 0 {
      assert Select([v], m) == tail + Select([], m);
    } else {
      var head := if vs[0].message == m then [vs[0]] else [];
      assert (vs + [v])[0] == vs[0];
      assert (vs + [v])[1..] == vs[1..] + [v];
      assert Select(vs + [v], m) == head + Select(vs[1..] + [v], m);
      SelectSnoc(vs[1..], v, m);
      assert Select(vs, m) == head + Select(vs[1..], m);
    }
  }

  lemma FirstSeenSnoc(vs: seq<Violation>, v: Violation)
    ensures FirstSeen(vs + [v]) ==
      if v.message in FirstSeen(vs) then FirstSeen(vs) else FirstSeen(vs) + [v.message]
  {
    assert (vs + [v])[..|vs|] == vs;
  }

  /** The reportable violations keep their relative order. */
  lemma {:induction false} FilteredIsSubsequence(vs: seq<Violation>)
    ensures Subsequence(Filtered(vs), vs)
    decreases |vs|
  {
    if |vs| > 0 {
      FilteredIsSubsequence(vs[1..]);
      if Reportable(vs[0]) {
        assert Filtered(vs)[1..] == Filtered(vs[1..]);
      } else {
        assert Filtered(vs) == Filtered(vs[1..]);
        SubsequenceOfTail(Filtered(vs), vs);
      }
    }
  }

  /** The violations of one message keep their relative order. */
  lemma {:induction false} SelectIsSubsequence(vs: seq<Violation>, m: string)
    ensures Subsequence(Select(vs, m), vs)
    decreases |vs|
  {
    if |vs| > 0 {
      SelectIsSubsequence(vs[1..], m);
      if vs[0].message == m {
        assert Select(vs, m)[1..] == Select(vs[1..], m);
      } else {
        assert Select(vs, m) == Select(vs[1..], m);
        SubsequenceOfTail(Select(vs, m), vs);
      }
    }
  }

  lemma SubsequenceOfTail<T>(a: seq<T>, b: seq<T>)
    requires |b| > 0 && Subsequence(a, b[1..])
    ensures Subsequence(a, b)
  {
  }

  /** Subsequence is transitive, so a group is in input order as well. */
  lemma {:induction false} SubsequenceTransitive<T>(a: seq<T>, b: seq<T>, c: seq<T>)
    requires Subsequence(a, b) && Subsequence(b, c)
    ensures Subsequence(a, c)
    decreases |c|
  {
    if |a| > 0 {
      assert |b| > 0 && |c| > 0;
      if b[0] == c[0] && Subsequence(b[1..], c[1..]) {
        if a[0] == b[0] && Subsequence(a[1..], b[1..]) {
          SubsequenceTransitive(a[1..], b[1..], c[1..]);
        } else {
          SubsequenceTransitive(a, b[1..], c[1..]);
        }
      } else {
        SubsequenceTransitive(a, b, c[1..]);
      }
    }
  }

  /** The count of a message's group is the number of reportable violations
      in the raw input carrying that exact message. */
  lemma {:induction false} SelectCount(rs: seq<Violation>, m: string)
    ensures |Select(Filtered(rs), m)| == Occurrences(rs, m)
    decreases |rs|
  {
    if |rs| > 0 {
      SelectCount(rs[1..], m);
      var head := if Reportable(rs[0]) then [rs[0]] else [];
      SelectAppend(head, Filtered(rs[1..]), m);
    }
  }

  lemma {:induction false} SelectAppend(a: seq<Violation>, b: seq<Violation>, m: string)
    ensures Select(a + b, m) == Select(a, m) + Select(b, m)
    decreases |a|
  {
    if |a| == 0 {
      assert a + b == b;
    } else {
      var head := if a[0].message == m then [a[0]] else [];
      assert (a + b)[0] == a[0];
      assert (a + b)[1..] == a[1..] + b;
      assert Select(a + b, m) == head + Select(a[1..] + b, m);
      SelectAppend(a[1..], b, m);
      assert Select(a, m) == head + Select(a[1..], m);
    }
  }

  /** Each message of the input appears exactly once among the group keys. */
  lemma {:induction false} FirstSeenMembers(vs: seq<Violation>)
    ensures forall m :: m in FirstSeen(vs) <==> Mentions(vs, m)
    ensures Distinct(FirstSeen(vs))
    decreases |vs|
  {
    if |vs| > 0 {
      var p := vs[..|vs| - 1];
      FirstSeenMembers(p);
      assert vs == p + [vs[|vs| - 1]];
      forall m
        ensures Mentions(vs, m) <==> Mentions(p, m) || vs[|vs| - 1].message == m
      {
        if Mentions(vs, m) {
          var i :| 0 <= i < |vs| && vs[i].message == m;
          if i < |p| {
            assert p[i] == vs[i];
          }
        }
        if Mentions(p, m) {
          var i :| 0 <= i < |p| && p[i].message == m;
          assert vs[i] == p[i];
        }
      }
    }
  }

  lemma FirstAtInPrefix(p: seq<Violation>, v: Violation, m: string, k: int)
    requires Mentions(p, m) && FirstAt(p + [v], m, k)
    ensures k < |p| && FirstAt(p, m, k)
  {
    var i :| 0 <= i < |p| && p[i].message == m;
    assert (p + [v])[i] == p[i];
    forall j | 0 <= j < k
      ensures p[j].message != m
    {
      assert (p + [v])[j] == p[j];
    }
  }

  /** Groups come out in the order their messages first occur in the input. */
  lemma {:induction false} FirstSeenOrder(vs: seq<Violation>)
    ensures forall i, j, ki, kj ::
      0 <= i < j < |FirstSeen(vs)| && FirstAt(vs, FirstSeen(vs)[i], ki) && FirstAt(vs, FirstSeen(vs)[j], kj)
      ==> ki < kj
    decreases |vs|
  {
    if |vs| > 0 {
      var p := vs[..|vs| - 1];
      var v := vs[|vs| - 1];
      assert vs == p + [v];
      FirstSeenOrder(p);
      FirstSeenMembers(p);
      FirstSeenSnoc(p, v);
      var ms := FirstSeen(p);
      forall i, j, ki, kj |
        0 <= i < j < |FirstSeen(vs)| && FirstAt(vs, FirstSeen(vs)[i], ki) && FirstAt(vs, FirstSeen(vs)[j], kj)
        ensures ki < kj
      {
        assert FirstSeen(vs)[i] == ms[i];
        assert Mentions(p, ms[i]);
        FirstAtInPrefix(p, v, ms[i], ki);
        if j < |ms| {
          assert FirstSeen(vs)[j] == ms[j];
          assert Mentions(p, ms[j]);
          FirstAtInPrefix(p, v, ms[j], kj);
        } else {
          assert FirstSeen(vs)[j] == v.message && v.message !in ms;
          assert !Mentions(p, v.message);
          if kj < |p| {
            assert p[kj] == vs[kj];
          }
        }
      }
    }
  }

  /** The reference grouping: one pair per distinct message, in first-seen
      order, holding that message's violations in input order. */
  function GroupsOf(f: seq<Violation>): (gs: seq<(string, seq<Violation>)>)
    ensures |gs| == |FirstSeen(f)|
  {
    var ms := FirstSeen(f);
    seq(|ms|, i requires 0 <= i < |ms| => (ms[i], Select(f, ms[i])))
  }

  /** A violation whose message already has a group joins the end of it. */
  lemma GroupsOfSnocOld(f: seq<Violation>, v: Violation, g: nat)
    requires g < |FirstSeen(f)| && FirstSeen(f)[g] == v.message
    ensures GroupsOf(f + [v]) == GroupsOf(f)[g := (v.message, GroupsOf(f)[g].1 + [v])]
  {
    var ms := FirstSeen(f);
    FirstSeenSnoc(f, v);
    FirstSeenMembers(f);
    assert v.message in ms;
    assert FirstSeen(f + [v]) == ms;
    var a := GroupsOf(f + [v]);
    var b := GroupsOf(f)[g := (v.message, GroupsOf(f)[g].1 + [v])];
    assert |a| == |b|;
    forall i | 0 <= i < |a|
      ensures a[i] == b[i]
    {
      SelectSnoc(f, v, ms[i]);
      assert a[i] == (ms[i], Select(f + [v], ms[i]));
      if i != g {
        assert ms[i] != v.message;
        assert b[i] == GroupsOf(f)[i] == (ms[i], Select(f, ms[i]));
        assert Select(f + [v], ms[i]) == Select(f, ms[i]);
      } else {
        assert GroupsOf(f)[g].1 == Select(f, ms[g]);
        assert b[i] == (v.message, Select(f, ms[g]) + [v]);
        assert Select(f + [v], ms[i]) == Select(f, ms[i]) + [v];
      }
    }
  }

  /** A violation with a new message opens a group at the end. */
  lemma GroupsOfSnocNew(f: seq<Violation>, v: Violation)
    requires v.message !in FirstSeen(f)
    ensures GroupsOf(f + [v]) == GroupsOf(f) + [(v.message, [v])]
  {
    var ms := FirstSeen(f);
    FirstSeenSnoc(f, v);
    SelectMembers(f, v.message);
    FirstSeenMembers(f);
    var ms' := ms + [v.message];
    assert FirstSeen(f + [v]) == ms';
    var a := GroupsOf(f + [v]);
    var b := GroupsOf(f) + [(v.message, [v])];
    assert |a| == |b|;
    forall i | 0 <= i < |a|
      ensures a[i] == b[i]
    {
      var m := ms'[i];
      SelectSnoc(f, v, m);
      assert a[i] == (m, Select(f + [v], m));
      if i == |ms| {
        if |Select(f, m)| > 0 {
          assert Select(f, m)[0] in Select(f, m);
          assert Mentions(f, m);
        }
        assert Select(f, m) == [];
        assert Select(f + [v], m) == [v];
        assert b[i] == (v.message, [v]);
      } else {
        assert m == ms[i] && m != v.message;
        assert b[i] == GroupsOf(f)[i] == (ms[i], Select(f, ms[i]));
        assert Select(f + [v], m) == Select(f, m);
      }
    }
  }
}

=== FILE: json.dfy ===
/** JSON documents as the linter and the custom rule see them. */
module Json {
  import opened Wrappers

  /** A JSON value. Numbers are integers; objects map keys to values. */
  datatype Value =
    | Null
    | Bool(b: bool)
    | Number(n: int)
    | String(s: string)
    | Array(items: seq<Value>)
    | Object(fields: map<string, Value>)

  /** Python's `bool(v)` for a decoded JSON value: empty containers are falsy. */
  predicate PyTruthy(v: Value) {
    match v
    case Null => false
    case Bool(b) => b
    case Number(n) => n != 0
    case String(s) => s != ""
    case Array(items) => |items| > 0
    case Object(fields) => |fields| > 0
  }

  /** JavaScript's `!!v`: every array and object is truthy, even an empty one. */
  predicate JsTruthy(v: Value) {
    match v
    case Null => false
    case Bool(b) => b
    case Number(n) => n != 0
    case String(s) => s != ""
    case Array(_) => true
    case Object(_) => true
  }

  /** The member `key` of an object; None for a missing key or a non-object. */
  function Member(v: Value, key: string): (r: Option<Value>)
    ensures r.Some? <==> v.Object? && key in v.fields
    ensures r.Some? ==> r.value == v.fields[key]
  {
    if v.Object? && key in v.fields then Some(v.fields[key]) else None
  }

  /** The two notions of truth differ exactly on empty containers. */
  lemma TruthinessDiffersOnlyOnEmptyContainers(v: Value)
    ensures PyTruthy(v) != JsTruthy(v) <==> v == Array([]) || v == Object(map[])
  {
    match v
    case Object(fields) =>
      if |fields| == 0 {
        assert fields == map[];
      }
    case _ =>
  }
}

=== FILE: paths.dfy ===
/** Violation paths and the walk that follows them through a document
    (linter.py, inside `process_results`). */
module Paths {
  import opened Wrappers
  import opened Json
  import Decimal

  /** A violation path: the keys and list positions from the document root. */
  type Path = seq<string>

  /** Why a walk stopped. The first three are the KeyError, IndexError and
      TypeError the source catches; NotAnIndex is the ValueError of `int(key)`,
      which it does not catch. */
  datatype Failure =
    | MissingKey(key: string)
    | IndexOutOfRange(index: int)
    | NotSubscriptable
    | NotAnIndex(segment: string)

  /** One descent `parent[key]`: a list parent turns the segment into an
      integer first, and a negative one counts from the end as in Python. */
  function Step(node: Value, seg: string): (r: Result<Value, Failure>)
    ensures r.Failure? && r.error.NotAnIndex? <==> node.Array? && Decimal.ParseInt(seg).None?
    ensures r.Failure? && r.error.NotSubscriptable? <==> !node.Array? && !node.Object?
    ensures r.Failure? && r.error.MissingKey? <==> node.Object? && seg !in node.fields
    ensures node.Object? && seg in node.fields ==> r == Success(node.fields[seg])
    ensures node.Array? && Decimal.ParseInt(seg).Some? ==>
      var k := Decimal.ParseInt(seg).value;
      var n := |node.items|;
      && (0 <= k < n ==> r == Success(node.items[k]))
      && (-n <= k < 0 ==> r == Success(node.items[n + k]))
      && (k < -n || n <= k ==> r == Failure(IndexOutOfRange(k)))
  {
    match node
    case Array(items) =>
      (match Decimal.ParseInt(seg)
       case None => Failure(NotAnIndex(seg))
       case Some(k) =>
         if 0 <= k < |items| then Success(items[k])
         else if -|items| <= k < 0 then Success(items[|items| + k])
         else Failure(IndexOutOfRange(k)))
    case Object(fields) =>
      if seg in fields then Success(fields[seg]) else Failure(MissingKey(seg))
    case _ => Failure(NotSubscriptable)
  }

  /** The node reached from `node` by descending through every segment of `p`,
      or the failure of the first descent that fails. */
  function Resolve(node: Value, p: Path): Result<Value, Failure>
    decreases |p|
  {
    if |p| == 0 then Success(node)
    else
      match Step(node, p[0])
      case Failure(e) => Failure(e)
      case Success(child) => Resolve(child, p[1..])
  }

  /** Python's `path[:-1]`: every segment but the last; empty for an empty path. */
  function Parent(p: Path): (q: Path)
    ensures |p| == 0 ==> q == []
    ensures |p| > 0 ==> p == q + [p[|p| - 1]]
  {
    if |p| == 0 then [] else p[..|p| - 1]
  }

  /** Python's `'.'.join(path)`. */
  function Join(p: Path): string
    decreases |p|
  {
    if |p| == 0 then ""
    else if |p| == 1 then p[0]
    else p[0] + "." + Join(p[1..])
  }

  /** Python's `s.split('.')`, the partner of Join. */
  function Split(s: string): (r: Path)
    ensures |r| > 0
    decreases |s|
  {
    if |s| == 0 then [""]
    else if s[0] == '.' then [""] + Split(s[1..])
    else
      var t := Split(s[1..]);
      [[s[0]] + t[0]] + t[1..]
  }

  /** A smallest document in which `p` leads to `leaf`: a non-negative integer
      segment becomes a list position, any other segment an object key. */
  function Embed(p: Path, leaf: Value): Value
    decreases |p|
  {
    if |p| == 0 then leaf
    else
      var child := Embed(p[1..], leaf);
      match Decimal.ParseInt(p[0])
      case Some(k) =>
        if k >= 0 then Array(seq(k, _ => Null) + [child])
        else Object(map[p[0] := child])
      case None => Object(map[p[0] := child])
  }

  /** Walking `a + b` is walking `a`, then walking `b` from where `a` ended;
      a failure on `a` is the failure of the whole walk. */
  lemma {:induction false} ResolveConcat(node: Value, a: Path, b: Path)
    ensures Resolve(node, a + b) ==
      match Resolve(node, a)
      case Success(mid) => Resolve(mid, b)
      case Failure(e) => Failure(e)
    decreases |a|
  {
    if |a| > 0 {
      assert (a + b)[0] == a[0];
      assert (a + b)[1..] == a[1..] + b;
      match Step(node, a[0]) {
        case Failure(_) =>
        case Success(child) => ResolveConcat(child, a[1..], b);
      }
    } else {
      assert a + b == b;
    }
  }

  /** List positions follow Python: `0..n-1` from the front, `-n..-1` from the
      back, anything else is an IndexError. */
  lemma StepListIndex(items: seq<Value>, k: int)
    ensures 0 <= k < |items| ==> Step(Array(items), Decimal.IntToString(k)) == Success(items[k])
    ensures -|items| <= k < 0 ==>
      Step(Array(items), Decimal.IntToString(k)) == Success(items[|items| + k])
    ensures k < -|items| || |items| <= k ==>
      Step(Array(items), Decimal.IntToString(k)) == Failure(IndexOutOfRange(k))
  {
    Decimal.ParseIntRoundTrip(k);
  }

  /** Embed is a right inverse of Resolve: the walk along `p` reaches `leaf`. */
  lemma {:induction false} ResolveEmbed(p: Path, leaf: Value)
    ensures Resolve(Embed(p, leaf), p) == Success(leaf)
    decreases |p|
  {
    if |p| > 0 {
      var child := Embed(p[1..], leaf);
      ResolveEmbed(p[1..], leaf);
      match Decimal.ParseInt(p[0]) {
        case Some(k) =>
          if k >= 0 {
            var items := seq(k, _ => Null) + [child];
            assert items[k] == child;
            assert Step(Array(items), p[0]) == Success(child);
          }
        case None =>
      }
    }
  }

  lemma {:induction false} SplitWithoutDot(a: string)
    requires '.' !in a
    ensures Split(a) == [a]
    decreases |a|
  {
    if |a| > 0 {
      assert a[0] != '.';
      SplitWithoutDot(a[1..]);
      assert [a[0]] + a[1..] == a;
    }
  }

  lemma {:induction false} SplitAtFirstDot(a: string, rest: string)
    requires '.' !in a
    ensures Split(a + "." + rest) == [a] + Split(rest)
    decreases |a|
  {
    var s := a + "." + rest;
    if |a| == 0 {
      assert s == "." + rest;
      assert s[1..] == rest;
    } else {
      assert s[0] == a[0] && a[0] != '.';
      assert s[1..] == a[1..] + "." + rest;
      SplitAtFirstDot(a[1..], rest);
      assert [a[0]] + a[1..] == a;
    }
  }

  /** Split inverts Join on a non-empty path whose segments hold no '.'. */
  lemma {:induction false} SplitJoin(p: Path)
    requires |p| > 0
    requires forall i :: 0 <= i < |p| ==> '.' !in p[i]
    ensures Split(Join(p)) == p
    decreases |p|
  {
    if |p| == 1 {
      SplitWithoutDot(p[0]);
    } else {
      SplitJoin(p[1..]);
      SplitAtFirstDot(p[0], Join(p[1..]));
      assert [p[0]] + p[1..] == p;
    }
  }
}

=== FILE: wrappers.dfy ===
/** Option and Result datatypes shared by the other modules. */
module Wrappers {

  /** An optional value: an absent command-line flag, a missing JSON key. */
  datatype Option<+T> = None | Some(value: T) {

    /** The carried value, or `default` when there is none. */
    function GetOr(default: T): T {
      match this
      case Some(v) => v
      case None => default
    }
  }

  /** Either a value or the error that prevented computing it. */
  datatype Result<+R, +E> = Success(value: R) | Failure(error: E)
}
